=== FILE: README.md ===
# Live bingo session — a Dafny model

The repository is a small live bingo game. An admin page draws numbers from 1 to 75. Players watch the board on their own page. A Socket.IO server keeps one authoritative copy of the drawn numbers and broadcasts every change. This project models the parts of that system that follow rules:

- **The standalone server** (`server/index.ts`). It holds the drawn-number `Set` and a `history` of decimal strings, newest first. Each socket handler is one pure transition `Step(store, event) -> (store, emissions)`. The central invariant is that `history` is always the set's insertion order, reversed and rendered as strings. A JavaScript `Set` iterates in insertion order (ECMAScript 2024, section 24.2), and numbers leave it only through `clear`, so the invariant holds after every trace of integer payloads within `Number.MAX_SAFE_INTEGER`, starting from the empty store.
- **The hub server** (`server/_core/index.ts`). It holds the same `Set` plus an online counter. It broadcasts `stats-update` after every change and searches up to 20 ports for a free one. Port availability is a function parameter.
- **The client socket context** (`SocketContext.tsx`). This is a reducer. Each inbound event replaces part of the client's copy: numbers, history, counters, player buckets, the reminder flag or the connection flag. The emit helpers send nothing without a socket.
- **The pages and components.** `BingoBoard` has 75 cells and forwards a click or a double-click only under exclusive conditions. `NicknameModal` validates by trimming first and then bounding the length. `Admin` has a two-step undo and a two-step reset. `Home` tracks the latest number and decides when to register a nickname.
- **Server and client together** (`Sync`). Suppose a client received the connection snapshot and then every broadcast. It then holds exactly the server's numbers, in the server's order, and the server's history. This holds after any trace.

Emissions are values. `ToSender` stands for `socket.emit` and `ToAll` for `io.emit`. The network, delivery and everything else the handlers do through libraries are left out. Socket.IO runs handlers one at a time on the event loop, so each handler is one atomic step.

Where the code and the intended design differ, the model follows the code:
- The server does not check that a drawn number lies in 1..75. Any number not yet drawn is stored.
- Neither server has a handler for `undo-number`, `register-player` or `report-state`. Those events change nothing.
- `reset-game` clears only the numbers and the history. Neither server keeps player statuses.
- The hub's `initial-state` is a bare array. Its draws are sent as `update-number`. On the client, the array empties the copy (`new Set(undefined)` and `undefined || []`), and `update-number` has no listener.
- The status values the report button sends (差1個, 差3個, 差5個, 差8個) are not the buckets the admin page displays (差1個, 差5個, 差10個, 差15個).

## Model

| member | source | states |
|---|---|---|
| OrderedSet.Add | server/index.ts:35 | `set.add`: the members gain exactly the new number, which goes to the end of the iteration order; a present number changes nothing; no duplicates appear |
| OrderedSet.FromSeq | client/src/contexts/SocketContext.tsx:84 | `new Set(array)` has no duplicates and exactly the array's members |
| OrderedSet.FromSeqOfNoDup | client/src/contexts/SocketContext.tsx:84-90 | a set built from a duplicate-free array keeps the array's order exactly |
| OrderedSet.SizeOfNoDup | server/_core/index.ts:76 | `set.size` is the number of entries in the insertion order |
| OrderedSet.Last | client/src/components/BingoBoard.tsx:20-21 | the last element of the iteration order is absent exactly when the set is empty, and otherwise is the final entry of the insertion order |
| OrderedSet.LastOfAdd | server/index.ts:35 | after a new number is added, it is the last element of the iteration order |
| Decimal.IntToDecimal | server/index.ts:37 | `toString` gives a non-empty string that starts with `-` exactly for a negative number, is digits otherwise, and never has a leading zero except for 0 itself |
| Decimal.RoundTrip | server/index.ts:37 | parsing `n.toString()` gives `n` back, for every integer `n` |
| Decimal.Injective | server/index.ts:37 | two integers have the same decimal string exactly when they are equal |
| GameStore.Valid | server/index.ts:18-19 | the store invariant: the set has no duplicates and the history has one entry per set member |
| GameStore.NewestFirstAppend | server/index.ts:35-37 | adding a number to the end of the set's order puts its string in front of the existing history |
| GameStore.Draw | server/index.ts:32-45 | a drawn number leaves state and output untouched; a new one, in any range, joins the end of the set, has its string put first in the history, and one `update-state` goes to everyone |
| GameStore.Reset | server/index.ts:48-53 | reset always leaves an empty set and history and always broadcasts `reset-game`, even when nothing was drawn |
| GameStore.Snapshot | server/index.ts:26-29 | `initial-state` carries the current set in insertion order and the current history |
| GameStore.Step | server/index.ts:22-64 | `number-clicked` is the draw and `reset-game` the reset; connection sends the snapshot to the new socket only; `remind-check` broadcasts the alert; disconnect and the unhandled events leave state and output untouched |
| GameStore.DrawPreservesValid | server/index.ts:33-37 | after a draw, the history is still the reverse of the set's order, rendered as strings |
| GameStore.StepPreservesValid | server/index.ts:18-64 | every handler keeps the set duplicate-free and the history its reversed rendering |
| GameStore.RunPreservesValid | server/index.ts:18-64 | the invariant holds after any sequence of events |
| GameStore.ValidHistory | server/index.ts:18-19 | under the invariant, the history length equals the set's size, no string repeats, and each string parses to a member |
| GameStore.DrawIdempotent | server/index.ts:33 | drawing the same number twice equals drawing it once, and the second draw emits nothing |
| GameStore.DrawBroadcast | server/index.ts:39-43 | the `update-state` of a new draw carries the post-draw set and history, and `latestNumber` is the drawn number; that number is also last in the set's order and first in the history |
| GameStore.SnapshotRecoversOrder | server/index.ts:26-29 | in the snapshot, history entry i parses to the i-th number from the end of the set's order |
| Hub.Stats | server/_core/index.ts:73-78 | `stats-update` goes to everyone and reports the counter and the set's size |
| Hub.Step | server/_core/index.ts:81-116 | connect adds one user and sends the bare array then stats; disconnect subtracts one and sends stats; a new number is added, then `update-number` and stats are sent; a duplicate does nothing; reset empties the set only; other events do nothing |
| Hub.OnlineUsersFromStart | server/_core/index.ts:69-113 | from start-up (no numbers, counter 0), the counter after any trace is the number of connections minus the number of disconnections |
| Hub.OnlineUsersCountsConnections | server/_core/index.ts:82-113 | after any trace, the counter has moved by exactly the number of connections minus the number of disconnections |
| Hub.StatsAreFresh | server/_core/index.ts:89-115 | every `stats-update` a handler emits reports the counter and set size after that handler |
| Hub.ResetKeepsUsers | server/_core/index.ts:104-110 | reset keeps the online count, and the stats after it report 0 selected |
| Hub.FindAvailablePort | server/_core/index.ts:22-29 | returns the smallest port in [start, start+20) reported free; fails, naming the start port, exactly when none in that range is free |
| SocketContext.Apply | client/src/contexts/SocketContext.tsx:58-121 | connect/reconnect set the flag and disconnect/connect_error clear it; a full state replaces numbers (as a set) and history; reset and the bare array empty both; stats are copied verbatim; the alert raises the reminder; every field an event does not name is kept |
| SocketContext.ApplyKeepsNoDup | client/src/contexts/SocketContext.tsx:82-98 | the client's numbers never hold a duplicate |
| SocketContext.FullStateIsExact | client/src/contexts/SocketContext.tsx:82-92 | for duplicate-free payloads, `initial-state` reproduces the server's order, and `update-state` has the same effect as `initial-state` because `latestNumber` is ignored |
| SocketContext.IgnoresUpdateNumber | client/src/contexts/SocketContext.tsx:82-121 | no listener reacts to `update-number` |
| SocketContext.CopiesStats | client/src/contexts/SocketContext.tsx:101-105 | `stats-update` overwrites the two counters and nothing else |
| SocketContext.EmitNumberClick | client/src/contexts/SocketContext.tsx:130-134 | sends `number-clicked` with the number exactly when there is a socket, and sends nothing exactly when there is none |
| SocketContext.EmitRemindCheck | client/src/contexts/SocketContext.tsx:136-140 | sends `remind-check` exactly when there is a socket |
| SocketContext.EmitReportState | client/src/contexts/SocketContext.tsx:142-146 | sends the status, or null, exactly when there is a socket |
| SocketContext.EmitUndoNumber | client/src/pages/Admin.tsx:35 | the undo helper, guarded like the others: sends `undo-number` with the number exactly when there is a socket |
| SocketContext.EmitRegisterPlayer | client/src/pages/Home.tsx:31 | the registration helper, guarded like the others: sends the nickname exactly when there is a socket |
| SocketContext.CallAsWritten | client/src/contexts/SocketContext.tsx:149 | a helper call returns exactly when the context value provides that helper; a returned call sends exactly what the helper sends, which is one event exactly when there is a socket |
| SocketContext.MissingHelpersNeverSend | client/src/pages/Admin.tsx:8 | calling `emitUndoNumber` or `emitRegisterPlayer` always throws, even with a socket |
| BingoBoard.Numbers | client/src/components/BingoBoard.tsx:40 | the board has 75 cells |
| BingoBoard.NumbersAreOneToSeventyFive | client/src/components/BingoBoard.tsx:40 | the cells are strictly ascending and hold exactly the numbers 1..75 |
| BingoBoard.HandleClick | client/src/components/BingoBoard.tsx:25-29 | a click is forwarded, with its own number, exactly when the board is admin, has a click handler and the number is undrawn |
| BingoBoard.HandleDoubleClick | client/src/components/BingoBoard.tsx:31-35 | a double-click is forwarded exactly when the board is admin, has a double-click handler and the number is drawn |
| BingoBoard.ClickAndDoubleClickExclusive | client/src/components/BingoBoard.tsx:25-35 | no number forwards both gestures, and a player's board forwards neither |
| BingoBoard.Render | client/src/components/BingoBoard.tsx:40-55 | cell i shows number i+1, is marked exactly when that number is drawn, and pulses exactly when it is `lastClicked` |
| BingoBoard.NextLastClicked | client/src/components/BingoBoard.tsx:15-23 | a non-empty set makes its last element `lastClicked`; an empty set keeps the previous value |
| BingoBoard.HighlightSurvivesReset | client/src/components/BingoBoard.tsx:15-23 | after a reset, the old number still pulses although no cell is marked |
| NicknameModal.Trim | client/src/components/NicknameModal.tsx:12 | the trimmed text starts and ends with non-whitespace, is no longer than the input and uses only its characters |
| NicknameModal.TrimRemovesOnlySpace | client/src/components/NicknameModal.tsx:12 | the input is whitespace, then the trimmed text as a contiguous slice, then whitespace |
| NicknameModal.TrimIdempotent | client/src/components/NicknameModal.tsx:12 | trimming twice is trimming once |
| NicknameModal.Utf16Length | client/src/components/NicknameModal.tsx:19 | the length counts UTF-16 code units, between one and two per character |
| NicknameModal.Utf16LengthPinned | client/src/components/NicknameModal.tsx:19 | the length equals the character count when every character is in the Basic Multilingual Plane, and twice it when none is |
| NicknameModal.Utf16LengthOfChar | client/src/components/NicknameModal.tsx:19 | one character counts one code unit, or two when it lies above U+FFFF |
| NicknameModal.Utf16LengthConcat | client/src/components/NicknameModal.tsx:19 | the length of a concatenation is the sum of the lengths |
| NicknameModal.Message | client/src/components/NicknameModal.tsx:15-20 | each rejection has a non-empty message, and the too-long message names the limit 20 |
| NicknameModal.ShownMessageNamesCause | client/src/components/NicknameModal.tsx:12-23 | after a rejected submission, the empty-nickname message is shown exactly when only whitespace was typed, and the too-long message exactly otherwise |
| NicknameModal.Validate | client/src/components/NicknameModal.tsx:11-22 | accepts the trimmed text exactly when it is non-empty and at most 20 units long; rejects empty input as empty and longer input as too long |
| NicknameModal.AcceptedNickname | client/src/components/NicknameModal.tsx:12-28 | an accepted nickname is 1..20 units long with no whitespace at either end, and resubmitting it accepts it unchanged |
| NicknameModal.Submit | client/src/components/NicknameModal.tsx:11-29 | on success, the saved value and the submitted value are both the trimmed input; on failure, nothing is saved or submitted and the error is shown |
| NicknameModal.Edit | client/src/components/NicknameModal.tsx:57-60 | typing replaces the text and clears the error |
| NicknameModal.KeyPress | client/src/components/NicknameModal.tsx:31-35 | Enter does exactly what the submit button does; other keys do nothing |
| AdminPage.Step | client/src/pages/Admin.tsx:12-43 | without a socket no action sends anything; a drawn number sends nothing; an undrawn one sends one `number-clicked` exactly when there is a socket; a double-click only records the pending undo; confirming sends the pending number and clears it; cancelling clears it silently; `reset-game` is sent exactly on CONFIRM RESET while confirming with a socket, which then closes, and otherwise CONFIRM RESET does nothing |
| AdminPage.ResetFromOpenedPage | client/src/pages/Admin.tsx:9-10 | on a freshly opened page (dialog closed, no undo pending), every action sequence that sends `reset-game` has RESET GAME before CONFIRM RESET |
| AdminPage.ResetNeedsTwoSteps | client/src/pages/Admin.tsx:176-200 | from the closed state, every action sequence that sends `reset-game` contains RESET GAME followed later by CONFIRM RESET |
| AdminPage.ConfirmAfter | client/src/pages/Admin.tsx:21-27 | `reset-game` is only ever sent by a CONFIRM RESET action |
| AdminPage.PressRemind | client/src/pages/Admin.tsx:112 | the reminder button sends `remind-check` exactly when there is a socket, sends nothing otherwise, and changes nothing on the page |
| AdminPage.TapCell | client/src/pages/Admin.tsx:12-19 | a tap on the admin board sends `number-clicked` exactly when the number is undrawn and there is a socket |
| AdminPage.DoubleTapCell | client/src/pages/Admin.tsx:29-31 | a double tap opens the undo dialog exactly for a drawn number and sends nothing |
| AdminPage.ConfirmUndoAsWritten | client/src/pages/Admin.tsx:33-39 | confirming throws exactly when a number is pending, and a throw leaves the state as it was; with nothing pending it does nothing |
| AdminPage.ConfirmUndoDiscrepancy | client/src/pages/Admin.tsx:33-39 | with a number pending, the handler as written throws and leaves the dialog open; the corrected step sends exactly that number and closes the dialog |
| HomePage.LatestNumber | client/src/pages/Home.tsx:44-51 | the latest number is the last in the set's order, and is absent exactly when the set is empty |
| HomePage.Mount | client/src/pages/Home.tsx:14-24 | corrected half of a finding: the page starts from its initial state (no latest number, no status), and the only change is that the nickname dialog opens exactly when no non-empty nickname is saved; a saved one is registered exactly when connected with a socket |
| HomePage.ConnectionChanged | client/src/pages/Home.tsx:27-34 | corrected half of a finding: becoming connected registers the saved nickname if there is one, and nothing else changes |
| HomePage.MountAsWritten | client/src/pages/Home.tsx:14-24 | the mount effect as written throws exactly when a non-empty nickname is saved and the client is connected, leaving the initial state; otherwise it sends nothing and changes only the dialog flag, which opens exactly when no nickname is saved |
| HomePage.ConnectionChangedAsWritten | client/src/pages/Home.tsx:27-34 | the connection effect as written throws exactly when connected with a saved nickname, and otherwise sends nothing and changes nothing |
| HomePage.SavedNicknameDiscrepancy | client/src/pages/Home.tsx:14-34 | for a returning player who is connected, both effects as written throw, while the corrected ones each register the saved nickname |
| HomePage.MountEffects | client/src/pages/Home.tsx:14-34 | both effects run on mount, so with the corrected helper a returning player who mounts while connected is registered twice, and otherwise nobody is registered; the state is the initial one with only the dialog flag set |
| HomePage.SubmitNickname | client/src/pages/Home.tsx:36-42 | submitting always closes the dialog, and registers exactly the submitted nickname only while connected |
| HomePage.SubmitNicknameAsWritten | client/src/pages/Home.tsx:36-42 | the handler as written throws exactly when connected, after closing the dialog; while disconnected it closes the dialog and sends nothing |
| HomePage.SubmitNicknameDiscrepancy | client/src/pages/Home.tsx:36-42 | while connected, the handler as written throws after closing the dialog; the corrected one registers the nickname |
| HomePage.ReportStatus | client/src/pages/Home.tsx:125-128 | the chosen status is remembered, sent exactly when there is a socket, and nothing is sent without one |
| HomePage.NoRegistrationWhileDisconnected | client/src/pages/Home.tsx:20-42 | mounting, a connection change, both mount effects together and a submission all send no registration while disconnected |
| Sync.SnapshotMirrors | server/index.ts:26-29 | a new client that applies the snapshot holds the server's numbers and history exactly |
| Sync.DrawMirrors | server/index.ts:39-43 | after a draw's broadcast, a client that was in step is still in step |
| Sync.StepMirrors | server/index.ts:32-64 | every handler's broadcasts keep an in-step client in step |
| Sync.RunFromStart | server/index.ts:18-19 | from the empty server store and a client that has received nothing (client/src/contexts/SocketContext.tsx:29-30), every trace keeps the server's invariant, and the client that receives every broadcast holds the server's numbers and history |
| Sync.RunMirrors | client/src/contexts/SocketContext.tsx:82-98 | a client that receives every broadcast of any trace ends with the server's numbers, in order, and the server's history |
| Sync.DrawBecomesLatest | client/src/pages/Home.tsx:44-51 | after a mirrored draw of n, the player page's latest number is n, the board highlights n, and the newest history entry parses to n |
| Sync.HubDrawEmits | server/_core/index.ts:92-100 | a new number on the hub broadcasts `update-number` with it, then stats with the size grown by one |
| Sync.HubDrawNotMirrored | server/_core/index.ts:97 | a client keeps its numbers after a hub draw while its `selectedCount` grows by one |
| Sync.HubSnapshotClears | server/_core/index.ts:86 | the hub's array-shaped `initial-state` leaves the client with no numbers and no history |

## Left out

- HTTP, Express, static and Vite serving, tRPC, OAuth and body parsers are library plumbing. They are not part of this model.
- Socket.IO transport and per-client delivery are not modelled. An emission is a value in the handler's output. `Sync.Deliver` gives one already-connected client the broadcasts.
- `isPortAvailable` probes a port by opening a server on it. This is I/O, so `Hub.FindAvailablePort` takes availability as a function.
- Hub.FindAvailablePort: the probe is assumed not to throw, so every port searched must lie within 0..65535. In the code, `listen` on a port above 65535 throws a `RangeError`, and the search then rejects with that error instead of the no-free-port error; a range starting at 65530 with those ports busy shows it.
- GameStore.Draw: the `number-clicked` payload is assumed to be an integer. The handler does not check its type. A string `"5"` after the number 5 would be a second member with a second history entry `"5"`, and `null` would be added and then make `toString` throw. Neither case is modelled.
- JavaScript numbers are modelled as integers. Fractions, `NaN` and the exponent form `toString` uses from 1e21 upward are not modelled.
- Decimal.IntToDecimal: the rendering is exact only for integers within `Number.MAX_SAFE_INTEGER` (2^53 - 1) in magnitude. Beyond that a JavaScript number is rounded to a double, so `toString` prints the shortest round-trip digits (2^60 prints as `1152921504606847000`), and `GameStore.Draw` would treat 2^53 and 2^53 + 1 as one set member where the model keeps two.
- The reminder's 3-second auto-clear timer is not modelled. `SocketContext.Apply` only raises `showReminder`.
- `ImmersiveNotificationModal` is timers and animation, and the floating button is a menu. Only the button's status vocabulary is kept, as `Protocol.ReportedStatus`.
- `localStorage` is a parameter: the saved nickname (`Option<string>`) and the `saved` field of the dialog.
- Toasts, `console` logging and styling are not modelled. The only rendering modelled is which cells are marked and pulsing.
- `Home` shows `lastNumber || "--"`, which displays a drawn 0 as `--`. This is presentation only, and `HomePage.LatestNumber` still holds 0.
- The input's `maxLength={20}` attribute is left out. The model treats the typed text as arbitrary, and the length check in `handleSubmit` still applies.
- Server-side undo, a nickname registry, per-status aggregation and a 1..75 check on the server appear only as intent, not in the code. They are not modelled as if implemented.
- Socket.IO reconnection policy (delay, five attempts) is not modelled. `reconnect_attempt` changes nothing in the context.

## Findings

| source | as written | input that shows it | evidently intended | confidence | as-written member | corrected member |
|---|---|---|---|---|---|---|
| client/src/pages/Admin.tsx:33-39 | `emitUndoNumber` is destructured from the context, but the context value (client/src/contexts/SocketContext.tsx:149) does not provide it, so confirming an undo throws a `TypeError` | pending undo 5, socket present: the handler throws, nothing is sent and the dialog stays on 5 | send `undo-number` with the pending number when there is a socket, then close the dialog | high, not executed | AdminPage.ConfirmUndoAsWritten | AdminPage.Step |
| client/src/pages/Home.tsx:36-42 | `emitRegisterPlayer` is destructured from the context but not provided, so registering a nickname while connected throws | submit "Ann" while connected: the dialog closes, then the call throws and nothing is sent | send `register-player` with the nickname when there is a socket | high, not executed | HomePage.SubmitNicknameAsWritten | HomePage.SubmitNickname |
| client/src/pages/Home.tsx:14-24 | the mount effect calls the unprovided `emitRegisterPlayer` when a nickname is saved and the client is connected, so it throws | saved "Ann", connected at mount: the effect throws and nothing is sent | register the saved nickname when there is a socket | high, not executed | HomePage.MountAsWritten | HomePage.Mount |
| client/src/pages/Home.tsx:27-34 | the connection effect calls the unprovided `emitRegisterPlayer` on becoming connected with a saved nickname, so it throws | saved "Ann", the connection comes up: the effect throws and nothing is sent | register the saved nickname when there is a socket | high, not executed | HomePage.ConnectionChangedAsWritten | HomePage.ConnectionChanged |

The two corrected helpers are `SocketContext.EmitUndoNumber` and `SocketContext.EmitRegisterPlayer`. The page steps use them. `AdminPage.ConfirmUndoDiscrepancy`, `HomePage.SubmitNicknameDiscrepancy` and `HomePage.SavedNicknameDiscrepancy` put the two behaviours side by side. The `[isConnected]` effect also runs on the first render, so even the corrected page registers a returning player twice when it mounts while connected (`HomePage.MountEffects`). The server ignores `register-player`, so the duplicate is harmless there. Neither server handles either event, so even the corrected sends change no server state.

=== FILE: admin_page.dfy ===
/** The admin page: drawing through the board, the two-step undo dialog and
    the two-step reset. */
module AdminPage {
  import opened Wrappers
  import opened Protocol
  import opened SocketContext
  import BingoBoard

  /** `showResetConfirm` and `undoNumber`. */
  datatype AdminState = AdminState(showResetConfirm: bool, undoPending: Option<int>)

  const Initial: AdminState := AdminState(false, None)

  /** What the admin can do on the page. */
  datatype AdminAction =
    | ClickNumber(n: int)        // `handleNumberClick`
    | DoubleClickNumber(n: int)  // `handleNumberDoubleClick`
    | ConfirmUndo                // `handleConfirmUndo`
    | CancelUndo                 // `handleCancelUndo`
    | AskReset                   // RESET GAME
    | CancelReset                // CANCEL
    | ConfirmReset               // CONFIRM RESET, `handleReset`
    | Remind                     // the reminder button

  datatype AdminStep = AdminStep(state: AdminState, emitted: seq<Inbound>)

  /** One action, given whether a socket exists and the context's numbers.
      The reset buttons exist only in their own phase: CONFIRM RESET and
      CANCEL while confirming, RESET GAME otherwise. */
  function Step(st: AdminState, hasSocket: bool, clicked: seq<int>, a: AdminAction): (r: AdminStep)
    ensures a.ClickNumber? ==> r.state == st
    ensures a.ClickNumber? && a.n in clicked ==> r.emitted == []
    ensures a.ClickNumber? && a.n !in clicked ==> (r.emitted == [NumberClicked(a.n)] <==> hasSocket)
    ensures a.ClickNumber? && !hasSocket ==> r.emitted == []
    ensures a.Remind? ==> r.state == st && (hasSocket <==> r.emitted == [RemindCheck])
    ensures a.Remind? && !hasSocket ==> r.emitted == []
    ensures a.DoubleClickNumber? ==> r == AdminStep(st.(undoPending := Some(a.n)), [])
    ensures a.ConfirmUndo? && st.undoPending.None? ==> r == AdminStep(st, [])
    ensures a.ConfirmUndo? && st.undoPending.Some? ==>
      && r.state == st.(undoPending := None)
      && (hasSocket <==> r.emitted == [UndoNumber(st.undoPending.value)])
    ensures a.CancelUndo? ==> r == AdminStep(st.(undoPending := None), [])
    ensures ResetGame in r.emitted <==> a.ConfirmReset? && st.showResetConfirm && hasSocket
    ensures a.ConfirmReset? && st.showResetConfirm && hasSocket ==> !r.state.showResetConfirm
    ensures a.ConfirmReset? && !(st.showResetConfirm && hasSocket) ==> r == AdminStep(st, [])
    ensures !hasSocket ==> r.emitted == []
    ensures a.CancelReset? && st.showResetConfirm ==> r == AdminStep(st.(showResetConfirm := false), [])
    ensures a.CancelReset? && !st.showResetConfirm ==> r == AdminStep(st, [])
    ensures a.AskReset? ==> r.state.showResetConfirm && r.emitted == []
    ensures !a.DoubleClickNumber? && !a.ConfirmUndo? && !a.CancelUndo? ==>
      r.state.undoPending == st.undoPending
    ensures |r.emitted| <= 1
  {
    match a
    case ClickNumber(n) =>
      if n in clicked then AdminStep(st, [])
      else AdminStep(st, EmitNumberClick(hasSocket, n))
    case DoubleClickNumber(n) => AdminStep(st.(undoPending := Some(n)), [])
    case ConfirmUndo =>
      if st.undoPending.Some? then
        AdminStep(st.(undoPending := None), EmitUndoNumber(hasSocket, st.undoPending.value))
      else AdminStep(st, [])
    case CancelUndo => AdminStep(st.(undoPending := None), [])
    case AskReset =>
      if st.showResetConfirm then AdminStep(st, []) else AdminStep(st.(showResetConfirm := true), [])
    case CancelReset =>
      if st.showResetConfirm then AdminStep(st.(showResetConfirm := false), []) else AdminStep(st, [])
    case ConfirmReset =>
      if st.showResetConfirm && hasSocket then AdminStep(st.(showResetConfirm := false), [ResetGame])
      else AdminStep(st, [])
    case Remind => AdminStep(st, EmitRemindCheck(hasSocket))
  }

  /** A confirmation dialog run: the sequence of actions from a state. */
  function Run(st: AdminState, hasSocket: bool, clicked: seq<int>, actions: seq<AdminAction>): (r: AdminStep)
    decreases |actions|
  {
    if |actions| == 0 then AdminStep(st, [])
    else
      var first := Step(st, hasSocket, clicked, actions[0]);
      var rest := Run(first.state, hasSocket, clicked, actions[1..]);
      AdminStep(rest.state, first.emitted + rest.emitted)
  }

  /** Starting from the closed dialog, no reset is sent unless the actions
      contain RESET GAME followed later by CONFIRM RESET: resetting always
      takes two steps. */
  lemma {:induction false} ResetNeedsTwoSteps(st: AdminState, hasSocket: bool, clicked: seq<int>,
                                               actions: seq<AdminAction>)
    requires !st.showResetConfirm
    requires ResetGame in Run(st, hasSocket, clicked, actions).emitted
    ensures exists i, j :: 0 <= i < j < |actions| && actions[i].AskReset? && actions[j].ConfirmReset?
    decreases |actions|
  {
    var first := Step(st, hasSocket, clicked, actions[0]);
    var rest := Run(first.state, hasSocket, clicked, actions[1..]);
    assert ResetGame !in first.emitted;
    if first.state.showResetConfirm {
      assert actions[0].AskReset?;
      var j := ConfirmAfter(first.state, hasSocket, clicked, actions[1..]);
      assert actions[1 + j] == actions[1..][j];
    } else {
      ResetNeedsTwoSteps(first.state, hasSocket, clicked, actions[1..]);
      var i, j :| 0 <= i < j < |actions[1..]| && actions[1..][i].AskReset? && actions[1..][j].ConfirmReset?;
      assert actions[i + 1].AskReset? && actions[j + 1].ConfirmReset?;
    }
  }

  /** On a freshly opened page, too, a reset takes RESET GAME and then
      CONFIRM RESET. */
  lemma ResetFromOpenedPage(hasSocket: bool, clicked: seq<int>, actions: seq<AdminAction>)
    requires ResetGame in Run(Initial, hasSocket, clicked, actions).emitted
    ensures exists i, j :: 0 <= i < j < |actions| && actions[i].AskReset? && actions[j].ConfirmReset?
  {
    ResetNeedsTwoSteps(Initial, hasSocket, clicked, actions);
  }

  /** Whatever the state, a reset is sent only by a CONFIRM RESET. */
  lemma {:induction false} ConfirmAfter(st: AdminState, hasSocket: bool, clicked: seq<int>,
                                         actions: seq<AdminAction>) returns (j: nat)
    requires ResetGame in Run(st, hasSocket, clicked, actions).emitted
    ensures j < |actions| && actions[j].ConfirmReset?
    decreases |actions|
  {
    var first := Step(st, hasSocket, clicked, actions[0]);
    if ResetGame in first.emitted {
      j := 0;
    } else {
      var k := ConfirmAfter(first.state, hasSocket, clicked, actions[1..]);
      j := k + 1;
    }
  }

  /** A cell tap on the admin board: the board forwards it only for an
      undrawn number, and the page then sends it. */
  function TapCell(st: AdminState, hasSocket: bool, clicked: seq<int>, n: int): (r: AdminStep)
    ensures r.state == st
    ensures r.emitted == [NumberClicked(n)] <==> hasSocket && n !in clicked
    ensures r.emitted == [] <==> !hasSocket || n in clicked
  {
    match BingoBoard.HandleClick(BingoBoard.BoardProps(true, true, true, clicked), n)
    case Some(m) => Step(st, hasSocket, clicked, ClickNumber(m))
    case None => AdminStep(st, [])
  }

  /** A double tap on the admin board opens the undo dialog only for a drawn
      number. */
  function DoubleTapCell(st: AdminState, hasSocket: bool, clicked: seq<int>, n: int): (r: AdminStep)
    ensures r.emitted == []
    ensures n in clicked ==> r.state == st.(undoPending := Some(n))
    ensures n !in clicked ==> r.state == st
  {
    match BingoBoard.HandleDoubleClick(BingoBoard.BoardProps(true, true, true, clicked), n)
    case Some(m) => Step(st, hasSocket, clicked, DoubleClickNumber(m))
    case None => AdminStep(st, [])
  }

  /** The reminder button: it sends `remind-check` when there is a socket
      and changes nothing on the page. */
  function PressRemind(st: AdminState, hasSocket: bool, clicked: seq<int>): (r: AdminStep)
    ensures r.state == st
    ensures r.emitted == [RemindCheck] <==> hasSocket
    ensures r.emitted == [] <==> !hasSocket
  {
    Step(st, hasSocket, clicked, Remind)
  }

  /** A handler that ran to the end, or one that threw and left the state as
      it was. */
  datatype AdminOutcome = Completed(step: AdminStep) | Threw(state: AdminState)

  /** `handleConfirmUndo` as the code stands: `emitUndoNumber` is not in the
      context, so the call throws before the dialog is closed. */
  function ConfirmUndoAsWritten(st: AdminState, hasSocket: bool): (r: AdminOutcome)
    ensures st.undoPending.None? ==> r == Completed(AdminStep(st, []))
    ensures r.Threw? <==> st.undoPending.Some?
    ensures r.Threw? ==> r.state == st
  {
    match st.undoPending
    case None => Completed(AdminStep(st, []))
    case Some(n) =>
      match CallAsWritten(UndoNumberCall(n), hasSocket)
      case Returned(out) => Completed(AdminStep(st.(undoPending := None), out))
      case ThrewTypeError => Threw(st)
  }

  /** With a number pending, the confirmation as written never sends the
      undo and leaves the dialog open on the same number; the corrected step
      sends exactly that number and closes the dialog. */
  lemma ConfirmUndoDiscrepancy(st: AdminState, clicked: seq<int>)
    requires st.undoPending.Some?
    ensures ConfirmUndoAsWritten(st, true) == Threw(st)
    ensures Step(st, true, clicked, ConfirmUndo) ==
            AdminStep(st.(undoPending := None), [UndoNumber(st.undoPending.value)])
  {
  }
}

=== FILE: bingo_board.dfy ===
/** The bingo board: 75 cells, the admin-only click and double-click
    forwarding, and the highlighted "last clicked" cell. */
module BingoBoard {
  import opened Wrappers
  import opened OrderedSet

  const CellCount := 75

  datatype BoardProps = BoardProps(
    isAdmin: bool,
    hasClickHandler: bool,
    hasDoubleClickHandler: bool,
    clicked: seq<int>)

  /** `Array.from({length: 75}, (_, i) => i + 1)`. */
  function Numbers(): (r: seq<int>)
    ensures |r| == CellCount
  {
    seq(CellCount, i => i + 1)
  }

  /** The board lists exactly 1..75, strictly ascending. */
  lemma NumbersAreOneToSeventyFive()
    ensures forall i, j :: 0 <= i < j < |Numbers()| ==> Numbers()[i] < Numbers()[j]
    ensures forall n :: n in Numbers() <==> 1 <= n <= CellCount
  {
    forall n | 1 <= n <= CellCount
      ensures n in Numbers()
    {
      assert Numbers()[n - 1] == n;
    }
  }

  /** `handleNumberClick`: the number handed to `onNumberClick`, if any. */
  function HandleClick(p: BoardProps, n: int): (r: Option<int>)
    ensures r.Some? <==> p.isAdmin && p.hasClickHandler && n !in p.clicked
    ensures r.Some? ==> r.value == n
  {
    if p.isAdmin && p.hasClickHandler && n !in p.clicked then Some(n) else None
  }

  /** `handleNumberDoubleClick`: the number handed to `onNumberDoubleClick`. */
  function HandleDoubleClick(p: BoardProps, n: int): (r: Option<int>)
    ensures r.Some? <==> p.isAdmin && p.hasDoubleClickHandler && n in p.clicked
    ensures r.Some? ==> r.value == n
  {
    if p.isAdmin && p.hasDoubleClickHandler && n in p.clicked then Some(n) else None
  }

  /** On any cell, at most one of the two gestures reaches the page, and a
      player's board forwards neither. */
  lemma ClickAndDoubleClickExclusive(p: BoardProps, n: int)
    ensures !(HandleClick(p, n).Some? && HandleDoubleClick(p, n).Some?)
    ensures !p.isAdmin ==> HandleClick(p, n).None? && HandleDoubleClick(p, n).None?
  {
  }

  /** What one cell shows. */
  datatype Cell = Cell(number: int, marked: bool, pulsing: bool)

  /** The rendered board, given the `lastClicked` state. */
  function Render(p: BoardProps, lastClicked: Option<int>): (cells: seq<Cell>)
    ensures |cells| == CellCount
    ensures forall i :: 0 <= i < |cells| ==>
      && cells[i].number == i + 1
      && (cells[i].marked <==> i + 1 in Members(p.clicked))
      && (cells[i].pulsing <==> lastClicked == Some(i + 1))
  {
    seq(CellCount, i requires 0 <= i < CellCount =>
      Cell(i + 1, i + 1 in p.clicked, lastClicked == Some(i + 1)))
  }

  /** The effect that runs when the numbers change: the last number in the
      set's order becomes `lastClicked`; an empty set leaves it alone. */
  function NextLastClicked(lastClicked: Option<int>, clicked: seq<int>): (r: Option<int>)
    ensures |clicked| > 0 ==> r == Last(clicked)
    ensures |clicked| == 0 ==> r == lastClicked
  {
    if |clicked| > 0 then Last(clicked) else lastClicked
  }

  /** After a reset the highlight stays on the old number, even though no
      cell is marked any more. */
  lemma HighlightSurvivesReset(n: int)
    requires 1 <= n <= CellCount
    ensures var cells := Render(BoardProps(false, false, false, []), NextLastClicked(Some(n), []));
      cells[n - 1].pulsing && !cells[n - 1].marked
  {
  }
}

=== FILE: decimal.dfy ===
/** `Number.prototype.toString()` on integer values: an optional minus sign
    followed by the decimal digits, without leading zeros.  A parser is given
    alongside as the independent partner that the rendering round-trips
    through. */
module Decimal {
  import opened Wrappers

  predicate IsDigit(c: char)
  {
    '0' <= c <= '9'
  }

  function DigitChar(d: nat): (c: char)
    requires d < 10
    ensures IsDigit(c) && (c as int) - ('0' as int) == d
  {
    (('0' as int) + d) as char
  }

  function DigitValue(c: char): (d: nat)
    requires IsDigit(c)
    ensures d < 10
  {
    (c as int) - ('0' as int)
  }

  predicate AllDigits(s: string)
  {
    forall i :: 0 <= i < |s| ==> IsDigit(s[i])
  }

  /** The decimal digits of a natural number, most significant first. */
  function NatToDecimal(n: nat): (s: string)
    ensures |s| >= 1 && AllDigits(s)
    ensures |s| > 1 ==> s[0] != '0'
    decreases n
  {
    if n < 10 then [DigitChar(n)] else NatToDecimal(n / 10) + [DigitChar(n % 10)]
  }

  /** `n.toString()` for an integer `n`. */
  function IntToDecimal(n: int): (s: string)
    ensures |s| >= 1
    ensures n < 0 <==> s[0] == '-'
    ensures n >= 0 ==> AllDigits(s)
    ensures n < 0 ==> |s| >= 2 && AllDigits(s[1..])
    ensures n >= 0 && |s| > 1 ==> s[0] != '0'
    ensures n < 0 ==> s[1] != '0'
  {
    if n < 0 then "-" + NatToDecimal(-n) else NatToDecimal(n)
  }

  /** The value of a string of digits. */
  function DigitsValue(s: string): nat
    requires AllDigits(s)
  {
    if |s| == 0 then 0 else DigitsValue(s[..|s| - 1]) * 10 + DigitValue(s[|s| - 1])
  }

  /** Reads an optional minus sign followed by at least one digit. */
  function ParseDecimal(s: string): (r: Option<int>)
    ensures r.Some? ==> |s| >= 1
  {
    if |s| >= 2 && s[0] == '-' && AllDigits(s[1..]) then Some(0 - DigitsValue(s[1..]) as int)
    else if |s| >= 1 && AllDigits(s) then Some(DigitsValue(s))
    else None
  }

  lemma {:induction false} NatRoundTrip(n: nat)
    ensures DigitsValue(NatToDecimal(n)) == n
    decreases n
  {
    if n >= 10 {
      var s := NatToDecimal(n);
      NatRoundTrip(n / 10);
      assert s[..|s| - 1] == NatToDecimal(n / 10);
    }
  }

  /** Parsing the rendering of an integer gives the integer back. */
  lemma RoundTrip(n: int)
    ensures ParseDecimal(IntToDecimal(n)) == Some(n)
  {
    var s := IntToDecimal(n);
    if n < 0 {
      var digits := NatToDecimal(-n);
      assert s == "-" + digits;
      assert s[1..] == digits;
      NatRoundTrip(-n);
    } else {
      assert !(|s| >= 2 && s[0] == '-');
      NatRoundTrip(n);
    }
  }

  /** Different integers render as different strings. */
  lemma Injective(a: int, b: int)
    ensures IntToDecimal(a) == IntToDecimal(b) <==> a == b
  {
    RoundTrip(a);
    RoundTrip(b);
  }
}

=== FILE: game_store.dfy ===
/** The game store of the standalone server: the drawn-number `Set`
    `clickedNumbers` and the `history` of decimal strings, newest first, with
    one atomic handler per socket event. */
module GameStore {
  import opened Wrappers
  import opened OrderedSet
  import opened Decimal
  import opened Protocol

  datatype Store = Store(clicked: seq<int>, history: seq<string>)

  /** The state after `Step`, and what the handler emitted, in order. */
  datatype StepResult = StepResult(store: Store, emitted: seq<Emission>)

  const Initial: Store := Store([], [])

  /** The drawn numbers in reverse insertion order, as decimal strings. */
  function NewestFirst(clicked: seq<int>): (h: seq<string>)
    ensures |h| == |clicked|
  {
    seq(|clicked|, i requires 0 <= i < |clicked| => IntToDecimal(clicked[|clicked| - 1 - i]))
  }

  /** The store invariant: the set has no duplicates (so its size is its
      length) and the history is exactly the set's iteration order reversed
      and rendered as strings. */
  predicate Valid(s: Store)
    ensures Valid(s) ==> |s.history| == |s.clicked| && NoDup(s.clicked)
  {
    NoDup(s.clicked) && s.history == NewestFirst(s.clicked)
  }

  /** Drawing a new number puts its rendering in front of the rendering of
      the older ones. */
  lemma NewestFirstAppend(clicked: seq<int>, n: int)
    ensures NewestFirst(clicked + [n]) == [IntToDecimal(n)] + NewestFirst(clicked)
  {
    var l, r := NewestFirst(clicked + [n]), [IntToDecimal(n)] + NewestFirst(clicked);
    forall i | 0 <= i < |l|
      ensures l[i] == r[i]
    {
      if i > 0 {
        assert (clicked + [n])[|clicked| - i] == clicked[|clicked| - 1 - (i - 1)];
      }
    }
  }

  /** The `number-clicked` handler.  There is no range check: every number
      that is not drawn yet is accepted. */
  function Draw(s: Store, n: int): (r: StepResult)
    ensures Members(r.store.clicked) == Members(s.clicked) + {n}
    ensures n in s.clicked ==> r == StepResult(s, [])
    ensures n !in s.clicked ==>
      && r.store.clicked == s.clicked + [n]
      && r.store.history == [IntToDecimal(n)] + s.history
      && r.emitted == [Emission(ToAll, UpdateState(r.store.clicked, r.store.history, n))]
  {
    if n in s.clicked then StepResult(s, [])
    else
      var next := Store(Add(s.clicked, n), [IntToDecimal(n)] + s.history);
      StepResult(next, [Emission(ToAll, UpdateState(next.clicked, next.history, n))])
  }

  /** The `reset-game` handler: always clears both parts and always
      broadcasts, even when nothing was drawn. */
  function Reset(s: Store): (r: StepResult)
    ensures Valid(r.store) && |r.store.clicked| == 0 && |r.store.history| == 0
    ensures r.emitted == [Emission(ToAll, ResetSignal)]
  {
    StepResult(Initial, [Emission(ToAll, ResetSignal)])
  }

  /** The snapshot a new connection receives. */
  function Snapshot(s: Store): (e: Outbound)
    ensures e.InitialState? && e.clickedNumbers == s.clicked && e.history == s.history
  {
    InitialState(s.clicked, s.history)
  }

  /** One handler run.  The server registers no handler for `undo-number`,
      `register-player` or `report-state`, so those events do nothing. */
  function Step(s: Store, e: Inbound): (r: StepResult)
    ensures e.Connect? ==> r == StepResult(s, [Emission(ToSender, Snapshot(s))])
    ensures e.RemindCheck? ==> r == StepResult(s, [Emission(ToAll, BingoCheckAlert)])
    ensures e.Disconnect? || e.UndoNumber? || e.RegisterPlayer? || e.ReportState? ==>
      r == StepResult(s, [])
    ensures !e.NumberClicked? && !e.ResetGame? ==> r.store == s
    ensures e.NumberClicked? ==> r == Draw(s, e.number)
    ensures e.ResetGame? ==> r == Reset(s)
  {
    match e
    case Connect => StepResult(s, [Emission(ToSender, Snapshot(s))])
    case NumberClicked(n) => Draw(s, n)
    case ResetGame => Reset(s)
    case RemindCheck => StepResult(s, [Emission(ToAll, BingoCheckAlert)])
    case Disconnect => StepResult(s, [])
    case UndoNumber(_) => StepResult(s, [])
    case RegisterPlayer(_) => StepResult(s, [])
    case ReportState(_) => StepResult(s, [])
  }

  /** A sequence of handler runs, with all emissions concatenated. */
  function Run(s: Store, es: seq<Inbound>): (r: StepResult)
    decreases |es|
  {
    if |es| == 0 then StepResult(s, [])
    else
      var first := Step(s, es[0]);
      var rest := Run(first.store, es[1..]);
      StepResult(rest.store, first.emitted + rest.emitted)
  }

  /** Drawing preserves the invariant: the new number goes to the end of the
      set's order and to the front of the history. */
  lemma DrawPreservesValid(s: Store, n: int)
    requires Valid(s)
    ensures Valid(Draw(s, n).store)
  {
    if n !in s.clicked {
      var r := Draw(s, n).store;
      assert r.history == NewestFirst(r.clicked) by {
        forall i | 0 <= i < |r.clicked|
          ensures r.history[i] == NewestFirst(r.clicked)[i]
        {
          if i > 0 {
            assert r.history[i] == s.history[i - 1];
            assert r.clicked[|r.clicked| - 1 - i] == s.clicked[|s.clicked| - 1 - (i - 1)];
          }
        }
      }
    }
  }

  /** Every handler preserves the invariant. */
  lemma StepPreservesValid(s: Store, e: Inbound)
    requires Valid(s)
    ensures Valid(Step(s, e).store)
  {
    if e.NumberClicked? {
      DrawPreservesValid(s, e.number);
    }
  }

  /** The invariant holds after any sequence of events. */
  lemma {:induction false} RunPreservesValid(s: Store, es: seq<Inbound>)
    requires Valid(s)
    ensures Valid(Run(s, es).store)
    decreases |es|
  {
    if |es| > 0 {
      StepPreservesValid(s, es[0]);
      RunPreservesValid(Step(s, es[0]).store, es[1..]);
    }
  }

  /** Consequences of the invariant: the history is as long as the set is
      large, holds no string twice, and each string is the rendering of a
      member. */
  lemma ValidHistory(s: Store)
    requires Valid(s)
    ensures |s.history| == |Members(s.clicked)|
    ensures forall i, j :: 0 <= i < j < |s.history| ==> s.history[i] != s.history[j]
    ensures forall i :: 0 <= i < |s.history| ==>
      ParseDecimal(s.history[i]).Some? && ParseDecimal(s.history[i]).value in s.clicked
  {
    SizeOfNoDup(s.clicked);
    HistoryDistinct(s);
    HistoryParses(s);
  }

  lemma HistoryDistinct(s: Store)
    requires Valid(s)
    ensures forall i, j :: 0 <= i < j < |s.history| ==> s.history[i] != s.history[j]
  {
    var k := |s.clicked|;
    forall i, j | 0 <= i < j < k
      ensures s.history[i] != s.history[j]
    {
      var a, b := s.clicked[k - 1 - i], s.clicked[k - 1 - j];
      assert a != b;
      Injective(a, b);
    }
  }

  lemma HistoryParses(s: Store)
    requires Valid(s)
    ensures forall i :: 0 <= i < |s.history| ==>
      ParseDecimal(s.history[i]) == Some(s.clicked[|s.clicked| - 1 - i])
  {
    forall i | 0 <= i < |s.history|
      ensures ParseDecimal(s.history[i]) == Some(s.clicked[|s.clicked| - 1 - i])
    {
      RoundTrip(s.clicked[|s.clicked| - 1 - i]);
    }
  }

  /** Drawing the same number twice has the effect of drawing it once, and
      the second draw broadcasts nothing. */
  lemma DrawIdempotent(s: Store, n: int)
    ensures Draw(Draw(s, n).store, n) == StepResult(Draw(s, n).store, [])
  {
  }

  /** The broadcast after a draw carries the post-draw state and names the
      number drawn, which is also the newest history entry and the last
      element of the set's order. */
  lemma DrawBroadcast(s: Store, n: int)
    requires Valid(s)
    requires n !in s.clicked
    ensures var r := Draw(s, n);
      && |r.emitted| == 1
      && r.emitted[0].event.UpdateState?
      && r.emitted[0].event.clickedNumbers == r.store.clicked
      && r.emitted[0].event.history == r.store.history
      && r.emitted[0].event.latestNumber == n
      && Last(r.store.clicked) == Some(n)
      && ParseDecimal(r.store.history[0]) == Some(n)
  {
    RoundTrip(n);
  }

  /** A fresh connection sees the current state: parsing its history back
      and reversing it recovers the set's order. */
  lemma SnapshotRecoversOrder(s: Store)
    requires Valid(s)
    ensures var snap := Snapshot(s);
      && |snap.history| == |snap.clickedNumbers|
      && forall i :: 0 <= i < |snap.history| ==>
           ParseDecimal(snap.history[i]) == Some(snap.clickedNumbers[|snap.clickedNumbers| - 1 - i])
  {
    HistoryParses(s);
  }
}

=== FILE: home_page.dfy ===
/** The player page: the latest number, the nickname dialog, registration
    and status reports. */
module HomePage {
  import opened Wrappers
  import opened OrderedSet
  import opened Protocol
  import opened SocketContext

  /** `showNicknameModal`, `lastNumber` and `selectedStatus`. */
  datatype HomeState = HomeState(
    showNicknameModal: bool,
    lastNumber: Option<int>,
    selectedStatus: Option<ReportedStatus>)

  const Initial: HomeState := HomeState(false, None, None)

  datatype HomeStep = HomeStep(state: HomeState, emitted: seq<Inbound>)

  /** `if (savedNickname)`: present and not the empty string. */
  predicate HasNickname(saved: Option<string>)
  {
    saved.Some? && saved.value != ""
  }

  /** The effect on the numbers: the last in the set's order, or nothing. */
  function LatestNumber(st: HomeState, clicked: seq<int>): (r: HomeState)
    ensures r.lastNumber.None? <==> |clicked| == 0
    ensures r.lastNumber.Some? ==> r.lastNumber.value == clicked[|clicked| - 1]
    ensures r.showNicknameModal == st.showNicknameModal && r.selectedStatus == st.selectedStatus
  {
    st.(lastNumber := Last(clicked))
  }

  /** The mount effect, with the registration helper corrected: the dialog
      opens exactly when no nickname is saved; a saved one is registered at
      once if already connected. */
  function Mount(saved: Option<string>, isConnected: bool, hasSocket: bool): (r: HomeStep)
    ensures r.state.showNicknameModal <==> !HasNickname(saved)
    ensures r.state == Initial.(showNicknameModal := !HasNickname(saved))
    ensures r.emitted != [] <==> HasNickname(saved) && isConnected && hasSocket
    ensures r.emitted != [] ==> r.emitted == [RegisterPlayer(saved.value)]
  {
    if !HasNickname(saved) then HomeStep(Initial.(showNicknameModal := true), [])
    else if isConnected then HomeStep(Initial, EmitRegisterPlayer(hasSocket, saved.value))
    else HomeStep(Initial, [])
  }

  /** The effect on the connection flag, with the registration helper
      corrected: becoming connected registers a saved nickname. */
  function ConnectionChanged(st: HomeState, isConnected: bool, saved: Option<string>, hasSocket: bool): (r: HomeStep)
    ensures r.state == st
    ensures r.emitted != [] <==> isConnected && HasNickname(saved) && hasSocket
    ensures r.emitted != [] ==> r.emitted == [RegisterPlayer(saved.value)]
  {
    if isConnected && HasNickname(saved) then HomeStep(st, EmitRegisterPlayer(hasSocket, saved.value))
    else HomeStep(st, [])
  }

  /** `handleNicknameSubmit`: the dialog always closes; the nickname is
      registered only while connected. */
  function SubmitNickname(st: HomeState, nickname: string, isConnected: bool, hasSocket: bool): (r: HomeStep)
    ensures !r.state.showNicknameModal
    ensures r.state.lastNumber == st.lastNumber && r.state.selectedStatus == st.selectedStatus
    ensures r.emitted != [] <==> isConnected && hasSocket
    ensures r.emitted != [] ==> r.emitted == [RegisterPlayer(nickname)]
  {
    var closed := st.(showNicknameModal := false);
    if isConnected then HomeStep(closed, EmitRegisterPlayer(hasSocket, nickname)) else HomeStep(closed, [])
  }

  /** A handler that ran to the end, or one that threw after the state
      changes it had already made. */
  datatype HomeOutcome = Completed(step: HomeStep) | Threw(state: HomeState)

  /** `handleNicknameSubmit` as the code stands: `emitRegisterPlayer` is not
      in the context, so once connected the call throws after the dialog has
      been closed. */
  function SubmitNicknameAsWritten(st: HomeState, nickname: string, isConnected: bool, hasSocket: bool): (r: HomeOutcome)
    ensures !isConnected ==> r == Completed(HomeStep(st.(showNicknameModal := false), []))
    ensures r.Threw? <==> isConnected
    ensures r.Threw? ==> r.state == st.(showNicknameModal := false)
  {
    var closed := st.(showNicknameModal := false);
    if isConnected then
      match CallAsWritten(RegisterPlayerCall(nickname), hasSocket)
      case Returned(out) => Completed(HomeStep(closed, out))
      case ThrewTypeError => Threw(closed)
    else Completed(HomeStep(closed, []))
  }

  /** While connected, the submission as written never registers, while the
      corrected one registers exactly the submitted nickname. */
  lemma SubmitNicknameDiscrepancy(st: HomeState, nickname: string)
    ensures SubmitNicknameAsWritten(st, nickname, true, true) == Threw(st.(showNicknameModal := false))
    ensures SubmitNickname(st, nickname, true, true).emitted == [RegisterPlayer(nickname)]
  {
  }

  /** The mount effect as the code stands: with a saved nickname while
      connected, the undefined `emitRegisterPlayer` is called and throws. */
  function MountAsWritten(saved: Option<string>, isConnected: bool, hasSocket: bool): (r: HomeOutcome)
    ensures r.Threw? <==> HasNickname(saved) && isConnected
    ensures r.Completed? ==> r.step.emitted == []
    ensures r.Completed? ==> (r.step.state.showNicknameModal <==> !HasNickname(saved))
    ensures r.Completed? ==> r.step.state == Initial.(showNicknameModal := !HasNickname(saved))
    ensures r.Threw? ==> r.state == Initial
  {
    if !HasNickname(saved) then Completed(HomeStep(Initial.(showNicknameModal := true), []))
    else if isConnected then
      match CallAsWritten(RegisterPlayerCall(saved.value), hasSocket)
      case Returned(out) => Completed(HomeStep(Initial, out))
      case ThrewTypeError => Threw(Initial)
    else Completed(HomeStep(Initial, []))
  }

  /** The connection effect as the code stands: once connected with a saved
      nickname, the call throws and nothing is sent. */
  function ConnectionChangedAsWritten(st: HomeState, isConnected: bool, saved: Option<string>, hasSocket: bool): (r: HomeOutcome)
    ensures r.Threw? <==> isConnected && HasNickname(saved)
    ensures r.Threw? ==> r.state == st
    ensures r.Completed? ==> r.step == HomeStep(st, [])
  {
    if isConnected && HasNickname(saved) then
      match CallAsWritten(RegisterPlayerCall(saved.value), hasSocket)
      case Returned(out) => Completed(HomeStep(st, out))
      case ThrewTypeError => Threw(st)
    else Completed(HomeStep(st, []))
  }

  /** A returning player (a non-empty saved nickname) who is connected: both
      effects as written throw and register nobody, while the corrected
      effects each register the saved nickname. */
  lemma SavedNicknameDiscrepancy(st: HomeState, name: string)
    requires name != ""
    ensures MountAsWritten(Some(name), true, true) == Threw(Initial)
    ensures ConnectionChangedAsWritten(st, true, Some(name), true) == Threw(st)
    ensures Mount(Some(name), true, true).emitted == [RegisterPlayer(name)]
    ensures ConnectionChanged(st, true, Some(name), true).emitted == [RegisterPlayer(name)]
  {
  }

  /** Both effects run on mount (the `[isConnected]` effect runs on its first
      render too), so with the corrected helper, mounting while connected
      registers a saved nickname twice. */
  function MountEffects(saved: Option<string>, isConnected: bool, hasSocket: bool): (r: HomeStep)
    ensures r.state.showNicknameModal <==> !HasNickname(saved)
    ensures r.state == Initial.(showNicknameModal := !HasNickname(saved))
    ensures HasNickname(saved) && isConnected && hasSocket ==>
      r.emitted == [RegisterPlayer(saved.value), RegisterPlayer(saved.value)]
    ensures !(HasNickname(saved) && isConnected && hasSocket) ==> r.emitted == []
  {
    var first := Mount(saved, isConnected, hasSocket);
    var second := ConnectionChanged(first.state, isConnected, saved, hasSocket);
    HomeStep(second.state, first.emitted + second.emitted)
  }

  /** The floating button's report: remembered, and sent if there is a
      socket. */
  function ReportStatus(st: HomeState, status: Option<ReportedStatus>, hasSocket: bool): (r: HomeStep)
    ensures r.state.selectedStatus == status
    ensures r.state.showNicknameModal == st.showNicknameModal && r.state.lastNumber == st.lastNumber
    ensures hasSocket <==> r.emitted == [ReportState(status)]
    ensures !hasSocket ==> r.emitted == []
  {
    HomeStep(st.(selectedStatus := status), EmitReportState(hasSocket, status))
  }

  /** Nothing the page does registers a player while disconnected. */
  lemma NoRegistrationWhileDisconnected(st: HomeState, saved: Option<string>, nickname: string, hasSocket: bool)
    ensures forall e :: e in Mount(saved, false, hasSocket).emitted ==> !e.RegisterPlayer?
    ensures forall e :: e in ConnectionChanged(st, false, saved, hasSocket).emitted ==> !e.RegisterPlayer?
    ensures forall e :: e in SubmitNickname(st, nickname, false, hasSocket).emitted ==> !e.RegisterPlayer?
    ensures forall e :: e in MountEffects(saved, false, hasSocket).emitted ==> !e.RegisterPlayer?
  {
  }
}

=== FILE: hub.dfy ===
/** The hub server variant: the drawn-number `Set`, an online counter, the
    `stats-update` broadcast and the search for a free listening port. */
module Hub {
  import opened Wrappers
  import opened OrderedSet
  import opened Protocol

  datatype HubState = HubState(clicked: seq<int>, onlineUsers: int)

  datatype StepResult = StepResult(state: HubState, emitted: seq<Emission>)

  const Initial: HubState := HubState([], 0)

  /** `broadcastStats()`: the counter and the set's size, to everyone. */
  function Stats(h: HubState): (e: Emission)
    requires NoDup(h.clicked)
    ensures e.target == ToAll && e.event.StatsUpdate?
    ensures e.event.onlineUsers == h.onlineUsers
    ensures e.event.selectedCount == |Members(h.clicked)|
  {
    SizeOfNoDup(h.clicked);
    Emission(ToAll, StatsUpdate(h.onlineUsers, |h.clicked|))
  }

  /** One handler run.  The hub registers no handler for `remind-check`,
      `undo-number`, `register-player` or `report-state`. */
  function Step(h: HubState, e: Inbound): (r: StepResult)
    requires NoDup(h.clicked)
    ensures NoDup(r.state.clicked)
    ensures e.Connect? ==>
      && r.state == h.(onlineUsers := h.onlineUsers + 1)
      && r.emitted == [Emission(ToSender, InitialNumbers(h.clicked)), Stats(r.state)]
    ensures e.Disconnect? ==>
      && r.state == h.(onlineUsers := h.onlineUsers - 1)
      && r.emitted == [Stats(r.state)]
    ensures e.NumberClicked? && e.number in h.clicked ==> r == StepResult(h, [])
    ensures e.NumberClicked? && e.number !in h.clicked ==>
      && r.state == h.(clicked := h.clicked + [e.number])
      && r.emitted == [Emission(ToAll, UpdateNumber(e.number)), Stats(r.state)]
    ensures e.ResetGame? ==>
      && r.state == HubState([], h.onlineUsers)
      && r.emitted == [Emission(ToAll, ResetSignal), Stats(r.state)]
    ensures e.RemindCheck? || e.UndoNumber? || e.RegisterPlayer? || e.ReportState? ==>
      r == StepResult(h, [])
  {
    match e
    case Connect =>
      var next := h.(onlineUsers := h.onlineUsers + 1);
      StepResult(next, [Emission(ToSender, InitialNumbers(h.clicked)), Stats(next)])
    case Disconnect =>
      var next := h.(onlineUsers := h.onlineUsers - 1);
      StepResult(next, [Stats(next)])
    case NumberClicked(n) =>
      if n in h.clicked then StepResult(h, [])
      else
        var next := h.(clicked := Add(h.clicked, n));
        StepResult(next, [Emission(ToAll, UpdateNumber(n)), Stats(next)])
    case ResetGame =>
      var next := HubState([], h.onlineUsers);
      StepResult(next, [Emission(ToAll, ResetSignal), Stats(next)])
    case RemindCheck => StepResult(h, [])
    case UndoNumber(_) => StepResult(h, [])
    case RegisterPlayer(_) => StepResult(h, [])
    case ReportState(_) => StepResult(h, [])
  }

  function Run(h: HubState, es: seq<Inbound>): (r: StepResult)
    requires NoDup(h.clicked)
    ensures NoDup(r.state.clicked)
    decreases |es|
  {
    if |es| == 0 then StepResult(h, [])
    else
      var first := Step(h, es[0]);
      var rest := Run(first.state, es[1..]);
      StepResult(rest.state, first.emitted + rest.emitted)
  }

  /** How many events of a trace are connections or disconnections. */
  function CountConnects(es: seq<Inbound>): nat
  {
    if |es| == 0 then 0 else (if es[0].Connect? then 1 else 0) + CountConnects(es[1..])
  }

  function CountDisconnects(es: seq<Inbound>): nat
  {
    if |es| == 0 then 0 else (if es[0].Disconnect? then 1 else 0) + CountDisconnects(es[1..])
  }

  /** From start-up, the counter is the number of connections minus the
      number of disconnections. */
  lemma OnlineUsersFromStart(es: seq<Inbound>)
    ensures Run(Initial, es).state.onlineUsers == CountConnects(es) - CountDisconnects(es)
  {
    OnlineUsersCountsConnections(Initial, es);
  }

  /** After any trace the counter has moved by connections minus
      disconnections; nothing else touches it. */
  lemma {:induction false} OnlineUsersCountsConnections(h: HubState, es: seq<Inbound>)
    requires NoDup(h.clicked)
    ensures Run(h, es).state.onlineUsers == h.onlineUsers + CountConnects(es) - CountDisconnects(es)
    decreases |es|
  {
    if |es| > 0 {
      OnlineUsersCountsConnections(Step(h, es[0]).state, es[1..]);
    }
  }

  /** Every `stats-update` a handler emits reports the state after that
      handler: the counter as it now stands and the size of the set. */
  lemma StatsAreFresh(h: HubState, e: Inbound)
    requires NoDup(h.clicked)
    ensures var r := Step(h, e);
      forall k :: 0 <= k < |r.emitted| && r.emitted[k].event.StatsUpdate? ==>
        && r.emitted[k].event.onlineUsers == r.state.onlineUsers
        && r.emitted[k].event.selectedCount == |Members(r.state.clicked)|
  {
  }

  /** Reset empties the set but keeps the counter, so the stats that follow
      report nothing selected and the same number of users online. */
  lemma ResetKeepsUsers(h: HubState)
    requires NoDup(h.clicked)
    ensures var r := Step(h, ResetGame);
      && r.state.onlineUsers == h.onlineUsers
      && r.emitted[1].event == StatsUpdate(h.onlineUsers, 0)
  {
  }

  /** Why `findAvailablePort` gave up. */
  datatype PortError = NoAvailablePortFrom(startPort: int)

  /** How many consecutive ports are tried. */
  const PortSearchWidth := 20

  /** `findAvailablePort(startPort)`: the first port in
      `[startPort, startPort + 20)` that `available` reports free, trying them
      in ascending order.  `available` stands for the probe that opens and
      closes a listening server on the port. */
  method FindAvailablePort(startPort: int, available: int -> bool) returns (r: Result<int, PortError>)
    ensures r.Success? ==>
      && startPort <= r.value < startPort + PortSearchWidth
      && available(r.value)
      && forall p :: startPort <= p < r.value ==> !available(p)
    ensures r.Failure? <==> forall p :: startPort <= p < startPort + PortSearchWidth ==> !available(p)
    ensures r.Failure? ==> r.error == NoAvailablePortFrom(startPort)
  {
    var port := startPort;
    while port < startPort + PortSearchWidth
      invariant startPort <= port <= startPort + PortSearchWidth
      invariant forall p :: startPort <= p < port ==> !available(p)
    {
      if available(port) {
        return Success(port);
      }
      port := port + 1;
    }
    return Failure(NoAvailablePortFrom(startPort));
  }
}

=== FILE: nickname_modal.dfy ===
/** The nickname dialog: the input is trimmed, must be non-empty and at most
    20 UTF-16 code units long, and is then stored and handed to the page. */
module NicknameModal {
  import opened Wrappers

  /** The characters `String.prototype.trim` removes: the WhiteSpace and
      LineTerminator code points of ECMAScript 2024, sections 12.2 and 12.3. */
  predicate IsWhitespace(c: char)
  {
    || c == '\t' || c == '\n' || c == '\U{B}' || c == '\U{C}' || c == '\r' || c == ' '
    || c == '\U{A0}' || c == '\U{1680}' || ('\U{2000}' <= c <= '\U{200A}')
    || c == '\U{2028}' || c == '\U{2029}' || c == '\U{202F}' || c == '\U{205F}'
    || c == '\U{3000}' || c == '\U{FEFF}'
  }

  /** The length of the leading run of whitespace. */
  function LeadingSpace(s: string): (k: nat)
    ensures k <= |s|
    ensures forall i :: 0 <= i < k ==> IsWhitespace(s[i])
    ensures k < |s| ==> !IsWhitespace(s[k])
  {
    if |s| == 0 || !IsWhitespace(s[0]) then 0 else 1 + LeadingSpace(s[1..])
  }

  /** The length of the trailing run of whitespace. */
  function TrailingSpace(s: string): (k: nat)
    ensures k <= |s|
    ensures forall i :: |s| - k <= i < |s| ==> IsWhitespace(s[i])
    ensures k < |s| ==> !IsWhitespace(s[|s| - 1 - k])
  {
    if |s| == 0 || !IsWhitespace(s[|s| - 1]) then 0 else 1 + TrailingSpace(s[..|s| - 1])
  }

  /** `s.trim()`. */
  function Trim(s: string): (t: string)
    ensures |t| <= |s|
    ensures |t| > 0 ==> !IsWhitespace(t[0]) && !IsWhitespace(t[|t| - 1])
    ensures forall i :: 0 <= i < |t| ==> t[i] in s
  {
    var front := s[LeadingSpace(s)..];
    front[..|front| - TrailingSpace(front)]
  }

  /** Trimming removes only whitespace: the input is whitespace, then the
      trimmed text, then whitespace. */
  lemma TrimRemovesOnlySpace(s: string)
    ensures exists a, b ::
      0 <= a <= b <= |s| && s[a..b] == Trim(s)
      && (forall i :: 0 <= i < a ==> IsWhitespace(s[i]))
      && (forall i :: b <= i < |s| ==> IsWhitespace(s[i]))
  {
    var a := LeadingSpace(s);
    var front := s[a..];
    var b := a + |front| - TrailingSpace(front);
    assert s[a..b] == Trim(s);
    forall i | b <= i < |s|
      ensures IsWhitespace(s[i])
    {
      assert s[i] == front[i - a];
    }
  }

  /** A string with no whitespace at either end is its own trim. */
  lemma TrimOfTrimmed(t: string)
    requires |t| > 0 ==> !IsWhitespace(t[0]) && !IsWhitespace(t[|t| - 1])
    ensures Trim(t) == t
  {
  }

  /** Trimming twice is trimming once. */
  lemma TrimIdempotent(s: string)
    ensures Trim(Trim(s)) == Trim(s)
  {
    TrimOfTrimmed(Trim(s));
  }

  /** `.length`: UTF-16 code units, so a code point outside the Basic
      Multilingual Plane counts twice. */
  function Utf16Length(s: string): (n: nat)
    ensures |s| <= n <= 2 * |s|
  {
    if |s| == 0 then 0 else (if s[0] as int > 0xFFFF then 2 else 1) + Utf16Length(s[1..])
  }

  /** The count is exactly the character count when every character lies in
      the Basic Multilingual Plane, and twice it when none does. */
  lemma {:induction false} Utf16LengthPinned(s: string)
    ensures (forall i :: 0 <= i < |s| ==> s[i] as int <= 0xFFFF) ==> Utf16Length(s) == |s|
    ensures (forall i :: 0 <= i < |s| ==> s[i] as int > 0xFFFF) ==> Utf16Length(s) == 2 * |s|
    decreases |s|
  {
    if |s| > 0 {
      Utf16LengthPinned(s[1..]);
      assert forall i :: 0 <= i < |s[1..]| ==> s[1..][i] == s[i + 1];
    }
  }

  /** A single character is one code unit, or two (a surrogate pair) when it
      lies outside the Basic Multilingual Plane. */
  lemma Utf16LengthOfChar(c: char)
    ensures Utf16Length([c]) == if c as int > 0xFFFF then 2 else 1
  {
    assert [c][1..] == [];
  }

  /** Lengths add up over concatenation, so the count is the sum of the
      characters' own counts. */
  lemma {:induction false} Utf16LengthConcat(a: string, b: string)
    ensures Utf16Length(a + b) == Utf16Length(a) + Utf16Length(b)
    decreases |a|
  {
    if |a| == 0 {
      assert a + b == b;
    } else {
      assert (a + b)[0] == a[0];
      assert (a + b)[1..] == a[1..] + b;
      Utf16LengthConcat(a[1..], b);
    }
  }

  const MaxLength := 20

  datatype NicknameError = EmptyNickname | NicknameTooLong

  /** The text shown for each rejection. */
  function Message(e: NicknameError): (m: string)
    ensures |m| > 0
    ensures e.NicknameTooLong? ==> |m| >= 9 && m[7..9] == "20"
  {
    match e
    case EmptyNickname => "請輸入暱稱才能進入遊戲！"
    case NicknameTooLong => "暱稱不能超過 20 個字元！"
  }

  /** The checks of `handleSubmit`. */
  function Validate(input: string): (r: Result<string, NicknameError>)
    ensures r.Success? <==> Trim(input) != [] && Utf16Length(Trim(input)) <= MaxLength
    ensures r.Success? ==> r.value == Trim(input)
    ensures r == Failure(EmptyNickname) <==> Trim(input) == []
    ensures r == Failure(NicknameTooLong) <==> Trim(input) != [] && Utf16Length(Trim(input)) > MaxLength
  {
    var t := Trim(input);
    if t == [] then Failure(EmptyNickname)
    else if Utf16Length(t) > MaxLength then Failure(NicknameTooLong)
    else Success(t)
  }

  /** An accepted nickname is 1 to 20 code units long with no whitespace at
      either end, and submitting it again accepts it unchanged. */
  lemma AcceptedNickname(input: string)
    requires Validate(input).Success?
    ensures var name := Validate(input).value;
      && 1 <= Utf16Length(name) <= MaxLength
      && !IsWhitespace(name[0]) && !IsWhitespace(name[|name| - 1])
      && Validate(name) == Success(name)
  {
    TrimIdempotent(input);
  }

  /** The dialog's state: the text typed, the error shown (if any) and the
      value saved under `bingo_player_name`. */
  datatype Modal = Modal(input: string, error: Option<NicknameError>, saved: Option<string>)

  /** After a submission: the dialog, and the nickname passed to `onSubmit`. */
  datatype SubmitResult = SubmitResult(modal: Modal, submitted: Option<string>)

  /** `handleSubmit`. */
  function Submit(m: Modal): (r: SubmitResult)
    ensures r.modal.input == m.input
    ensures r.submitted.Some? <==> Validate(m.input).Success?
    ensures r.submitted.Some? ==>
      && r.submitted == Some(Trim(m.input))
      && r.modal.saved == r.submitted
      && r.modal.error == m.error
    ensures r.submitted.None? ==>
      && r.modal.saved == m.saved
      && r.modal.error == Some(Validate(m.input).error)
  {
    match Validate(m.input)
    case Failure(e) => SubmitResult(m.(error := Some(e)), None)
    case Success(name) => SubmitResult(m.(saved := Some(name)), Some(name))
  }

  /** After a rejected submission the text shown tells the player which
      check failed: the empty-nickname message exactly when nothing but
      whitespace was typed, the too-long message otherwise. */
  lemma ShownMessageNamesCause(m: Modal)
    ensures Submit(m).submitted.None? ==>
      && Submit(m).modal.error.Some?
      && (Message(Submit(m).modal.error.value) == Message(EmptyNickname) <==> Trim(m.input) == [])
      && (Message(Submit(m).modal.error.value) == Message(NicknameTooLong) <==> Trim(m.input) != [])
  {
    assert Message(EmptyNickname)[0] != Message(NicknameTooLong)[0];
  }

  /** `onChange`: the new text, and no error. */
  function Edit(m: Modal, text: string): (r: Modal)
    ensures r.input == text && r.error.None? && r.saved == m.saved
  {
    m.(input := text, error := None)
  }

  /** `handleKeyPress`: Enter submits; other keys do nothing here. */
  function KeyPress(m: Modal, key: string): (r: SubmitResult)
    ensures key == "Enter" ==> r == Submit(m)
    ensures key != "Enter" ==> r == SubmitResult(m, None)
  {
    if key == "Enter" then Submit(m) else SubmitResult(m, None)
  }
}

=== FILE: ordered_set.dfy ===
/** A JavaScript `Set<number>` as the model sees it: a sequence without
    duplicates, in insertion order.  A `Set` iterates in insertion order
    (ECMAScript 2024, section 24.2), and `Array.from(set)` yields exactly that
    order, so the sequence is the set together with its iteration order. */
module OrderedSet {
  import opened Wrappers

  /** No element occurs twice. */
  predicate NoDup(s: seq<int>)
  {
    forall i, j :: 0 <= i < j < |s| ==> s[i] != s[j]
  }

  /** The abstract set of members. */
  function Members(s: seq<int>): set<int>
  {
    set x | x in s
  }

  /** `set.add(x)`: a new element goes to the end of the iteration order; an
      element already present keeps its place and nothing changes. */
  function Add(s: seq<int>, x: int): (r: seq<int>)
    ensures Members(r) == Members(s) + {x}
    ensures NoDup(s) ==> NoDup(r)
    ensures x in s ==> r == s
    ensures x !in s ==> |r| == |s| + 1 && r[..|s|] == s && r[|s|] == x
  {
    if x in s then s else s + [x]
  }

  /** `new Set(xs)`: the elements of `xs` added one after the other. */
  function FromSeq(xs: seq<int>): (r: seq<int>)
    ensures NoDup(r)
    ensures Members(r) == Members(xs)
    ensures |r| <= |xs|
  {
    if |xs| == 0 then [] else Add(FromSeq(xs[..|xs| - 1]), xs[|xs| - 1])
  }

  /** Building a set from a duplicate-free array reproduces the array,
      order included. */
  lemma {:induction false} FromSeqOfNoDup(xs: seq<int>)
    requires NoDup(xs)
    ensures FromSeq(xs) == xs
  {
    if |xs| > 0 {
      var init := xs[..|xs| - 1];
      assert NoDup(init);
      FromSeqOfNoDup(init);
      assert xs[|xs| - 1] !in init;
      assert init + [xs[|xs| - 1]] == xs;
    }
  }

  /** The cardinality of a duplicate-free sequence's member set is its length,
      so `set.size` is the length of the sequence. */
  lemma {:induction false} SizeOfNoDup(s: seq<int>)
    requires NoDup(s)
    ensures |Members(s)| == |s|
  {
    if |s| > 0 {
      var init := s[..|s| - 1];
      assert NoDup(init);
      SizeOfNoDup(init);
      assert s == init + [s[|s| - 1]];
      assert Members(s) == Members(init) + {s[|s| - 1]};
      assert s[|s| - 1] !in Members(init);
    }
  }

  /** `Array.from(set)[size - 1]`: the most recently inserted element, or
      nothing for an empty set. */
  function Last(s: seq<int>): (r: Option<int>)
    ensures r.None? <==> |s| == 0
    ensures r.Some? ==> r.value == s[|s| - 1]
  {
    if |s| == 0 then None else Some(s[|s| - 1])
  }

  /** Adding a fresh element makes it the most recent one. */
  lemma LastOfAdd(s: seq<int>, x: int)
    requires x !in s
    ensures Last(Add(s, x)) == Some(x)
  {
  }
}

=== FILE: protocol.dfy ===
/** The socket events exchanged between the pages and the two server
    variants, with the payload shapes the code actually sends. */
module Protocol {
  import opened Wrappers

  /** The statuses the floating report button offers (差1個, 差3個, 差5個,
      差8個); `None` in a report withdraws it. */
  datatype ReportedStatus = Miss1 | Miss3 | Miss5 | Miss8

  /** The per-bucket player counts the client context stores and the admin
      page displays (差1個, 差5個, 差10個, 差15個).  These buckets are not the
      statuses above. */
  datatype PlayerStats = PlayerStats(miss1: int, miss5: int, miss10: int, miss15: int)

  /** Events a client sends, and the connection life-cycle events the server
      observes. */
  datatype Inbound =
    | Connect
    | Disconnect
    | NumberClicked(number: int)
    | ResetGame
    | RemindCheck
    | UndoNumber(number: int)
    | RegisterPlayer(nickname: string)
    | ReportState(status: Option<ReportedStatus>)

  /** Events a server sends. */
  datatype Outbound =
      /** `initial-state` as an object `{clickedNumbers, history}`. */
    | InitialState(clickedNumbers: seq<int>, history: seq<string>)
      /** `initial-state` as a bare array of numbers. */
    | InitialNumbers(numbers: seq<int>)
    | UpdateState(clickedNumbers: seq<int>, history: seq<string>, latestNumber: int)
    | UpdateNumber(number: int)
    | ResetSignal
    | BingoCheckAlert
    | StatsUpdate(onlineUsers: int, selectedCount: int)
    | UpdateStats(stats: PlayerStats)

  /** `socket.emit` reaches only the connection being handled; `io.emit`
      reaches every connection. */
  datatype Target = ToSender | ToAll

  datatype Emission = Emission(target: Target, event: Outbound)
}

=== FILE: socket_context.dfy ===
/** The client's socket context: a mirror of the server state that each
    inbound event replaces piecewise, and the emit helpers that refuse to
    send without a socket. */
module SocketContext {
  import opened Wrappers
  import opened OrderedSet
  import opened Protocol

  datatype ClientState = ClientState(
    hasSocket: bool,
    numbers: seq<int>,
    history: seq<string>,
    isConnected: bool,
    onlineUsers: int,
    selectedCount: int,
    showReminder: bool,
    playerStats: PlayerStats)

  /** What the context reacts to: connection life-cycle events of the
      socket, server events, and the creation of the socket itself. */
  datatype ClientEvent =
    | SocketCreated
    | Connected
    | Reconnected
    | ReconnectAttempt(attempt: int)
    | Disconnected
    | ConnectError
    | Received(event: Outbound)

  const ZeroStats: PlayerStats := PlayerStats(0, 0, 0, 0)

  /** The state before the socket exists: nothing drawn, offline, all four
      player buckets at zero. */
  const Initial: ClientState :=
    ClientState(false, [], [], false, 0, 0, false, ZeroStats)

  /** The parts of the state that describe the game, as opposed to the
      connection and the stats. */
  predicate SameGame(a: ClientState, b: ClientState)
  {
    a.numbers == b.numbers && a.history == b.history
  }

  predicate SameStats(a: ClientState, b: ClientState)
  {
    a.onlineUsers == b.onlineUsers && a.selectedCount == b.selectedCount && a.playerStats == b.playerStats
  }

  /** The effect of one event on the context's state. */
  function Apply(c: ClientState, ev: ClientEvent): (r: ClientState)
    // the socket handle only appears once it has been created
    ensures r.hasSocket == (c.hasSocket || ev.SocketCreated?)
    // the connection flag follows connect / reconnect / disconnect / connect_error
    ensures ev.Connected? || ev.Reconnected? ==> r.isConnected
    ensures ev.Disconnected? || ev.ConnectError? ==> !r.isConnected
    ensures !(ev.Connected? || ev.Reconnected? || ev.Disconnected? || ev.ConnectError?) ==>
      r.isConnected == c.isConnected
    // a full-state payload replaces the game: the numbers become the payload's
    // numbers as a set, the history the payload's history
    ensures ev.Received? && (ev.event.InitialState? || ev.event.UpdateState?) ==>
      && NoDup(r.numbers)
      && Members(r.numbers) == Members(ev.event.clickedNumbers)
      && r.history == ev.event.history
    // a bare-array initial state has neither field, so both become empty
    ensures ev.Received? && (ev.event.InitialNumbers? || ev.event.ResetSignal?) ==>
      r.numbers == [] && r.history == []
    ensures !(ev.Received? && (ev.event.InitialState? || ev.event.UpdateState?
                || ev.event.InitialNumbers? || ev.event.ResetSignal?)) ==>
      SameGame(r, c)
    // the counters are copied verbatim from `stats-update`
    ensures ev.Received? && ev.event.StatsUpdate? ==>
      && r.onlineUsers == ev.event.onlineUsers
      && r.selectedCount == ev.event.selectedCount
      && r.playerStats == c.playerStats
    ensures ev.Received? && ev.event.UpdateStats? ==>
      r.playerStats == ev.event.stats && r.onlineUsers == c.onlineUsers && r.selectedCount == c.selectedCount
    ensures !(ev.Received? && (ev.event.StatsUpdate? || ev.event.UpdateStats?)) ==> SameStats(r, c)
    ensures r.showReminder == (c.showReminder || (ev.Received? && ev.event.BingoCheckAlert?))
  {
    match ev
    case SocketCreated => c.(hasSocket := true)
    case Connected => c.(isConnected := true)
    case Reconnected => c.(isConnected := true)
    case ReconnectAttempt(_) => c
    case Disconnected => c.(isConnected := false)
    case ConnectError => c.(isConnected := false)
    case Received(e) =>
      match e
      case InitialState(nums, hist) => c.(numbers := FromSeq(nums), history := hist)
      case InitialNumbers(_) => c.(numbers := FromSeq([]), history := [])
      case UpdateState(nums, hist, _) => c.(numbers := FromSeq(nums), history := hist)
      case UpdateNumber(_) => c
      case ResetSignal => c.(numbers := [], history := [])
      case BingoCheckAlert => c.(showReminder := true)
      case StatsUpdate(online, selected) => c.(onlineUsers := online, selectedCount := selected)
      case UpdateStats(stats) => c.(playerStats := stats)
  }

  /** The client's numbers are always a proper set. */
  lemma ApplyKeepsNoDup(c: ClientState, ev: ClientEvent)
    requires NoDup(c.numbers)
    ensures NoDup(Apply(c, ev).numbers)
  {
  }

  /** When the server's numbers are already duplicate-free, the client's copy
      is the server's sequence itself, iteration order included. */
  lemma FullStateIsExact(c: ClientState, nums: seq<int>, hist: seq<string>, latest: int)
    requires NoDup(nums)
    ensures Apply(c, Received(InitialState(nums, hist))).numbers == nums
    ensures Apply(c, Received(UpdateState(nums, hist, latest))) ==
            Apply(c, Received(InitialState(nums, hist)))
  {
    FromSeqOfNoDup(nums);
  }

  /** There is no `update-number` listener: the event changes nothing. */
  lemma IgnoresUpdateNumber(c: ClientState, n: int)
    ensures Apply(c, Received(UpdateNumber(n))) == c
  {
  }

  /** `stats-update` overwrites the two counters and nothing else. */
  lemma CopiesStats(c: ClientState, online: int, selected: int)
    ensures Apply(c, Received(StatsUpdate(online, selected))) == c.(onlineUsers := online, selectedCount := selected)
  {
  }

  /** `emitNumberClick`, `emitRemindCheck`, `emitReportState`: the event,
      or nothing at all when there is no socket. */
  function EmitNumberClick(hasSocket: bool, n: int): (out: seq<Inbound>)
    ensures hasSocket <==> out == [NumberClicked(n)]
    ensures !hasSocket <==> out == []
  {
    if hasSocket then [NumberClicked(n)] else []
  }

  function EmitRemindCheck(hasSocket: bool): (out: seq<Inbound>)
    ensures hasSocket <==> out == [RemindCheck]
    ensures !hasSocket <==> out == []
  {
    if hasSocket then [RemindCheck] else []
  }

  function EmitReportState(hasSocket: bool, status: Option<ReportedStatus>): (out: seq<Inbound>)
    ensures hasSocket <==> out == [ReportState(status)]
    ensures !hasSocket <==> out == []
  {
    if hasSocket then [ReportState(status)] else []
  }

  /** The two helpers the pages destructure but the context value does not
      provide, written like the three that exist. */
  function EmitUndoNumber(hasSocket: bool, n: int): (out: seq<Inbound>)
    ensures hasSocket <==> out == [UndoNumber(n)]
    ensures !hasSocket <==> out == []
  {
    if hasSocket then [UndoNumber(n)] else []
  }

  function EmitRegisterPlayer(hasSocket: bool, name: string): (out: seq<Inbound>)
    ensures hasSocket <==> out == [RegisterPlayer(name)]
    ensures !hasSocket <==> out == []
  {
    if hasSocket then [RegisterPlayer(name)] else []
  }

  /** A call of one of the helpers the pages take from the context, with its
      argument. */
  datatype HelperCall =
    | NumberClickCall(n: int)
    | RemindCheckCall
    | ReportStateCall(status: Option<ReportedStatus>)
    | UndoNumberCall(n: int)
    | RegisterPlayerCall(name: string)

  /** What the helper sends when it exists. */
  function Intended(call: HelperCall, hasSocket: bool): seq<Inbound>
  {
    match call
    case NumberClickCall(n) => EmitNumberClick(hasSocket, n)
    case RemindCheckCall => EmitRemindCheck(hasSocket)
    case ReportStateCall(status) => EmitReportState(hasSocket, status)
    case UndoNumberCall(n) => EmitUndoNumber(hasSocket, n)
    case RegisterPlayerCall(name) => EmitRegisterPlayer(hasSocket, name)
  }

  /** The context value carries `emitNumberClick`, `emitRemindCheck` and
      `emitReportState` only. */
  predicate Provided(call: HelperCall)
  {
    call.NumberClickCall? || call.RemindCheckCall? || call.ReportStateCall?
  }

  /** Calling a destructured helper: a helper the context lacks is
      `undefined`, and calling it throws a `TypeError` before anything is
      sent. */
  datatype CallOutcome = Returned(emitted: seq<Inbound>) | ThrewTypeError

  function CallAsWritten(call: HelperCall, hasSocket: bool): (r: CallOutcome)
    ensures r.Returned? <==> Provided(call)
    ensures r.Returned? ==> |r.emitted| <= 1 && (hasSocket <==> |r.emitted| == 1)
    ensures r.Returned? ==> r.emitted == Intended(call, hasSocket)
  {
    if Provided(call) then Returned(Intended(call, hasSocket)) else ThrewTypeError
  }

  /** Neither missing helper can ever send its event, socket or not, while
      the corrected helpers send it whenever there is a socket. */
  lemma MissingHelpersNeverSend(n: int, name: string)
    ensures CallAsWritten(UndoNumberCall(n), true) == ThrewTypeError
    ensures CallAsWritten(RegisterPlayerCall(name), true) == ThrewTypeError
    ensures Intended(UndoNumberCall(n), true) == [UndoNumber(n)]
    ensures Intended(RegisterPlayerCall(name), true) == [RegisterPlayer(name)]
  {
  }
}

=== FILE: sync.dfy ===
/** How the client's copy follows the server: a client that received the
    snapshot and then every broadcast holds exactly the server's set, in the
    server's order, and the server's history. */
module Sync {
  import opened Wrappers
  import opened OrderedSet
  import opened Decimal
  import opened Protocol
  import opened SocketContext
  import GameStore
  import Hub
  import HomePage
  import BingoBoard

  /** What an already-connected client receives of a handler's emissions:
      the broadcasts, in order (a `socket.emit` goes to the sender only). */
  function Deliver(c: ClientState, emitted: seq<Emission>): ClientState
    decreases |emitted|
  {
    if |emitted| == 0 then c
    else
      var next := if emitted[0].target == ToAll then Apply(c, Received(emitted[0].event)) else c;
      Deliver(next, emitted[1..])
  }

  lemma {:induction false} DeliverConcat(c: ClientState, a: seq<Emission>, b: seq<Emission>)
    ensures Deliver(c, a + b) == Deliver(Deliver(c, a), b)
    decreases |a|
  {
    if |a| == 0 {
      assert a + b == b;
    } else {
      var next := if a[0].target == ToAll then Apply(c, Received(a[0].event)) else c;
      assert (a + b)[0] == a[0];
      assert (a + b)[1..] == a[1..] + b;
      DeliverConcat(next, a[1..], b);
    }
  }

  /** The client's game equals the server's. */
  predicate Mirrors(c: ClientState, s: GameStore.Store)
  {
    c.numbers == s.clicked && c.history == s.history
  }

  /** The snapshot sent on connection puts the new client in step. */
  lemma SnapshotMirrors(c: ClientState, s: GameStore.Store)
    requires GameStore.Valid(s)
    ensures Mirrors(Apply(c, Received(GameStore.Snapshot(s))), s)
  {
    FromSeqOfNoDup(s.clicked);
  }

  /** Delivering a single emission. */
  lemma DeliverOne(c: ClientState, em: Emission)
    ensures Deliver(c, [em]) == if em.target == ToAll then Apply(c, Received(em.event)) else c
  {
    assert [em][1..] == [];
  }

  lemma DrawMirrors(c: ClientState, s: GameStore.Store, n: int)
    requires GameStore.Valid(s) && Mirrors(c, s)
    ensures Mirrors(Deliver(c, GameStore.Draw(s, n).emitted), GameStore.Draw(s, n).store)
  {
    var r := GameStore.Draw(s, n);
    if n !in s.clicked {
      GameStore.DrawPreservesValid(s, n);
      DeliverOne(c, r.emitted[0]);
      FullStateIsExact(c, r.store.clicked, r.store.history, n);
    }
  }

  /** Each handler keeps a client in step that was in step before. */
  lemma StepMirrors(c: ClientState, s: GameStore.Store, e: Inbound)
    requires GameStore.Valid(s) && Mirrors(c, s)
    ensures Mirrors(Deliver(c, GameStore.Step(s, e).emitted), GameStore.Step(s, e).store)
  {
    match e
    case NumberClicked(n) => DrawMirrors(c, s, n);
    case ResetGame => DeliverOne(c, Emission(ToAll, ResetSignal));
    case RemindCheck => DeliverOne(c, Emission(ToAll, BingoCheckAlert));
    case Connect => DeliverOne(c, Emission(ToSender, GameStore.Snapshot(s)));
    case Disconnect =>
    case UndoNumber(_) =>
    case RegisterPlayer(_) =>
    case ReportState(_) =>
  }

  /** Over any trace, a client in step at the start is in step at the end. */
  lemma {:induction false} RunMirrors(c: ClientState, s: GameStore.Store, es: seq<Inbound>)
    requires GameStore.Valid(s) && Mirrors(c, s)
    ensures Mirrors(Deliver(c, GameStore.Run(s, es).emitted), GameStore.Run(s, es).store)
    decreases |es|
  {
    if |es| > 0 {
      var first := GameStore.Step(s, es[0]);
      var rest := GameStore.Run(first.store, es[1..]);
      StepMirrors(c, s, es[0]);
      GameStore.StepPreservesValid(s, es[0]);
      RunMirrors(Deliver(c, first.emitted), first.store, es[1..]);
      DeliverConcat(c, first.emitted, rest.emitted);
    }
  }

  /** From start-up (an empty server and a client that has received
      nothing), any trace keeps the server's invariant and a client that
      receives every broadcast holds the server's numbers and history. */
  lemma RunFromStart(es: seq<Inbound>)
    ensures GameStore.Valid(GameStore.Run(GameStore.Initial, es).store)
    ensures Mirrors(Deliver(SocketContext.Initial, GameStore.Run(GameStore.Initial, es).emitted),
                    GameStore.Run(GameStore.Initial, es).store)
  {
    GameStore.RunPreservesValid(GameStore.Initial, es);
    RunMirrors(SocketContext.Initial, GameStore.Initial, es);
  }

  /** A draw the client mirrors shows up as the latest number on the player
      page and as the highlighted cell on the board, and it is the newest
      history entry. */
  lemma DrawBecomesLatest(c: ClientState, s: GameStore.Store, n: int, home: HomePage.HomeState,
                          last: Option<int>)
    requires GameStore.Valid(s) && Mirrors(c, s) && n !in s.clicked
    ensures var r := GameStore.Draw(s, n);
      var c' := Deliver(c, r.emitted);
      && HomePage.LatestNumber(home, c'.numbers).lastNumber == Some(n)
      && BingoBoard.NextLastClicked(last, c'.numbers) == Some(n)
      && |c'.history| > 0
      && ParseDecimal(c'.history[0]) == Some(n)
  {
    DrawMirrors(c, s, n);
    GameStore.DrawBroadcast(s, n);
  }

  /** What the hub broadcasts for a new number. */
  lemma HubDrawEmits(h: Hub.HubState, n: int)
    requires NoDup(h.clicked) && n !in h.clicked
    ensures Hub.Step(h, NumberClicked(n)).emitted ==
      [Emission(ToAll, UpdateNumber(n)), Emission(ToAll, StatsUpdate(h.onlineUsers, |h.clicked| + 1))]
  {
    var r := Hub.Step(h, NumberClicked(n));
    SizeOfNoDup(r.state.clicked);
  }

  /** The hub's draw is not mirrored: its `update-number` has no listener on
      the client, so the client's numbers stay as they were while its
      `selectedCount` moves on. */
  lemma HubDrawNotMirrored(c: ClientState, h: Hub.HubState, n: int)
    requires NoDup(h.clicked) && n !in h.clicked
    ensures var c' := Deliver(c, Hub.Step(h, NumberClicked(n)).emitted);
      && c'.numbers == c.numbers
      && c'.selectedCount == |h.clicked| + 1
  {
    HubDrawEmits(h, n);
    var first := Emission(ToAll, UpdateNumber(n));
    var stats := Emission(ToAll, StatsUpdate(h.onlineUsers, |h.clicked| + 1));
    assert [first, stats] == [first] + [stats];
    DeliverConcat(c, [first], [stats]);
    DeliverOne(c, first);
    IgnoresUpdateNumber(c, n);
    DeliverOne(c, stats);
    CopiesStats(c, h.onlineUsers, |h.clicked| + 1);
  }

  /** The hub's array-shaped `initial-state` empties the client's copy
      whatever the hub holds. */
  lemma HubSnapshotClears(c: ClientState, h: Hub.HubState)
    requires NoDup(h.clicked)
    ensures var r := Hub.Step(h, Connect);
      var c' := Apply(c, Received(r.emitted[0].event));
      c'.numbers == [] && c'.history == []
  {
  }
}

=== FILE: wrappers.dfy ===
/** Optional values and success/failure results, standing in for the
    `null`/`undefined` checks and the thrown errors of the modelled code. */
module Wrappers {

  /** A value that may be absent (`T | null` in the source). */
  datatype Option<+T> = None | Some(value: T)

  /** The outcome of an operation that can fail with an error value. */
  datatype Result<+R, +E> = Success(value: R) | Failure(error: E)
}
